=== FILE: README.md ===
# wallet-service in Dafny

A model of the core of `wallet-service`, a NestJS wallet ledger that mails
its users whenever money moves. It covers four pieces:

- **The ledger engine** (`TransactionService`): deposits, withdrawals and
  transfers. Each one is validated in a fixed order. On success it commits
  the new balances, one immutable transaction row and one
  `transactions.created` announcement. There are also two reads, `findById`
  and `findAll`.
- **The notification consumer** (`TransactionEmailConsumer`): subscribes to
  `transactions.created` under the group `<groupId>-email`. For each event
  it looks the row up at most three times, waiting after every miss; a
  lookup that throws ends the handler at once. It then derives zero, one or
  two e-mails from the row's debited and credited wallets and sends them in
  order. The first send that throws ends the handler.
- **The notification dispatcher** (`EmailService`): chooses the template by
  transaction kind and builds the payload: recipient, subject
  `Transação <KIND>` and body. It makes exactly one transport send per
  e-mail. A transport failure is logged and rethrown.
- **The event-bus adapter** (`KafkaService`) does four things:
  - keeps a consumer registry keyed by `topic:groupId`, where registering a
    key again is a no-op;
  - builds the record for an outgoing message;
  - runs the guarded per-message handler;
  - tears everything down, the producer first and then every registered
    consumer.

Files:

| file | module | what |
|---|---|---|
| `wrappers.dfy` | `Wrappers` | `Option`, `Result`, `Outcome` |
| `domain.dfy` | `Domain` | transaction kinds, the transaction row, the slot rule, the announced event |
| `transaction_service.dfy` | `Ledger` | The store as a value, with `DepositWithdrawSpec` and `TransferSpec` and their lemmas. The class `TransactionService` performs the operations in place, and each method is proved to do what its specification function says. |
| `email_service.dfy` | `Email` | template choice, payload, the `Transport` and `EmailService` classes |
| `kafka_service.dfy` | `Kafka` | registry key, message record, per-message handler, the `KafkaService` class |
| `transaction_email_consumer.dfy` | `Notifications` | job derivation, the retry loop, the sequential sends, the `TransactionEmailConsumer` class |

Modelling choices:

- **Money.** Amounts and balances are exact integers (cents).
- **Ids and time.**
  - A row's id is its position in the log, so ids are distinct by construction.
  - Commit time is a parameter `now`.
- **The ledger store** is the fields of `TransactionService`:
  - a map from wallet to balance;
  - the log of rows;
  - the sequence of announcements handed to the producer.
- **Atomic commit.** A commit is all-or-nothing: when the producer send
  inside the commit scope fails (`publishOk == false`), the method restores
  the balances and log it saved before its first write. This models the
  database's rollback-on-throw, which is assumed, not proved.
- **Injected outside answers.** Everything that comes from outside the
  program is a parameter:
  - what the consumer's i-th lookup gives (`lookup(i)`: the row, nothing, or a thrown error);
  - whether the mail relay accepts a mail (`accepts`);
  - which broker step throws (`failAt`, `ok`);
  - how a message is serialized and parsed, and whether the callback throws.
- **Waits** are counted in milliseconds (`waitedMs`), not slept.
- **Rendered bodies.** A rendered body is the value `Rendered(template, data)`.
- **Broker calls** are recorded in order in `KafkaService.trace`.
- **The consumer registry** is a `map` plus a `seq` of keys in insertion
  order. This is the order in which the source's `Map` is iterated at
  teardown.

Two behaviours of the code that one might expect to be otherwise:

- **When the event is published.** One might expect publication to follow
  the commit, with a publish failure leaving the commit in place. The code calls
  the producer inside the `$transaction` callback
  (`src/transaction/transaction.service.ts:83-88`, `147-152`), so a publish
  failure undoes the commit. `DepositWithdrawSpec` and `TransferSpec` return
  `Rejected(PublishFailed)` with the store unchanged in that case.
- **Deposit e-mails.** One might expect a deposit to produce one e-mail,
  to its wallet's owner. In the code the only e-mail besides a transfer's second one is
  sent to the debited wallet's owner
  (`src/email/consumer/transaction-email.consumer.ts:63-90`). A deposit row
  has no debited wallet, so a deposit produces none
  (`Notifications.CommittedDepositSendsNoEmail`).

## Model

| member | source | states |
|---|---|---|
| Ledger.DepositWithdrawSpec | src/transaction/transaction.service.ts:41-92 | Checks run in this order: amount ≤ 0 gives BadRequest, a missing wallet gives NotFound, kind TRANSFER gives BadRequest, and a withdrawal below zero gives BadRequest. The operation commits exactly when every check passes and the publish succeeds; when every check passes and the publish fails, the result is `PublishFailed`. A commit sets only that wallet to old ± amount (never negative for a withdrawal) and appends one row with the slot for its kind filled (credited for a deposit, debited for a withdrawal). It also appends one announcement carrying the row's id, kind, amount and time. |
| Ledger.TransferSpec | src/transaction/transaction.service.ts:94-155 | Checks run in this order: amount ≤ 0, same account, debited missing, credited missing, insufficient funds. The operation commits exactly when all checks pass and the publish succeeds; when all checks pass and the publish fails, the result is `PublishFailed`. A commit takes the amount from the debited wallet (which stays ≥ 0) and adds it to the credited wallet, so the pair's sum is kept. No other wallet changes. It appends one TRANSFER row naming both wallets and its announcement. |
| Ledger.Lookup | src/transaction/transaction.service.ts:29-31 | A hit is a row of the log with the requested id; there is no hit exactly when no row has that id. |
| Ledger.DepositWithdrawPreserves | src/transaction/transaction.service.ts:55-91 | A committed deposit or withdrawal keeps the store sound: no negative balance, ids are the commit positions, every row obeys the slot rule and names known wallets, and every row is announced once, in order. It also keeps each balance equal to the opening balance plus the net flow of the log. |
| Ledger.TransferPreserves | src/transaction/transaction.service.ts:125-155 | The same soundness and history agreement is kept by a committed transfer. |
| Ledger.TransferConservesTotal | src/transaction/transaction.service.ts:120-136 | A committed transfer leaves the sum of all balances unchanged. |
| Ledger.DepositWithdrawTotal | src/transaction/transaction.service.ts:58-72 | A committed deposit raises the sum of all balances by the amount; a committed withdrawal lowers it by the amount. |
| Ledger.LookupFindsEachRow | src/transaction/transaction.service.ts:28-38 | When ids are distinct, looking up a row's id finds that very row. |
| Ledger.TransferScenario | src/transaction/transaction.service.spec.ts:46-86 | Wallets at 500 and 200 and a transfer of 100: the transfer commits, leaves 400 and 300, and creates a TRANSFER row naming both. |
| Ledger.WithdrawScenario | src/transaction/transaction.service.spec.ts:233-252 | At balance 30, withdrawing 50 is rejected for insufficient balance. Withdrawing exactly 30 commits and leaves 0. |
| Ledger.MessageIdentifiesError | src/transaction/transaction.service.ts:32-123 | Every exception the service raises itself carries a message, and no two of them carry the same message, so the message tells which check failed. The producer's error carries no message of the service's. |
| Ledger.TransactionService.FindById | src/transaction/transaction.service.ts:28-39 | The result is a row of the log with that id. It is NotFound, with the message "Transaction not found", exactly when no row has that id. |
| Ledger.TransactionService.FindAll | src/transaction/transaction.service.ts:20-26 | It returns every row, and each returned row is what findById returns for its id. The model returns them in commit order (see "## Left out"). |
| Ledger.TransactionService.DepositWithdraw | src/transaction/transaction.service.ts:41-92 | Performed step by step on the fields, including the rollback. The result and the new state are exactly what `DepositWithdrawSpec` gives: the created row and the committed store, or the error and an unchanged store. Store soundness is kept. |
| Ledger.TransactionService.Transfer | src/transaction/transaction.service.ts:94-156 | The same, for `TransferSpec`. |
| Email.TemplateSelectionBijective | src/email/email.service.ts:53-63 | Template selection is total and one-to-one over the three kinds: each kind's template describes that kind, and every template is chosen for exactly one kind. |
| Email.BuildPayload | src/email/email.service.ts:42-49 | The payload is addressed to `userEmail`. Its subject is "Transação " followed by the kind's name and parses back to that kind. Its body is the kind's template applied to the same data. |
| Email.Transport.SendMail | src/email/email.service.ts:28-33 | One send is recorded; it succeeds exactly when the relay accepts the mail. |
| Email.EmailService.constructor | src/email/email.service.ts:14-24 | The transport is created from the relay host, port, user and password, and is secure exactly when the port is 465. |
| Email.EmailService.SendEmail | src/email/email.service.ts:26-40 | Exactly one transport send, from `"Wallet Service" <user>`, of the payload's to, subject and body. A refusal is logged and returned as the error; a success is logged. |
| Email.EmailService.SendTransactionEmail | src/email/email.service.ts:42-51 | Exactly one transport send, of the mail built for the data. The send fails exactly when the relay refuses it, and the refusal is the error passed on. |
| Kafka.ConsumerKeyInjective | src/kafka/kafka.service.ts:47 | For legal topic names (no ':'), equal registry keys mean equal topic and equal group. |
| Kafka.ConsumerKeyCollidesOnColonTopic | src/kafka/kafka.service.ts:47 | Without that naming rule, ("a:b", "c") and ("a", "b:c") share a key. |
| Kafka.BuildRecord | src/kafka/kafka.service.ts:31-39 | One message on the given topic. It has a key exactly when the message has an id, and that key is the id's text form; its value is the serialized message. |
| Kafka.SameIdSameKey | src/kafka/kafka.service.ts:35 | When the id's text form is one-to-one, two messages get the same partition key exactly when they have the same id (both without an id included), whatever their topics. |
| Ledger.AnnouncementsKeyedByRow | src/transaction/transaction.service.ts:83-88 | In a sound store each announcement goes to `transactions.created` keyed by its row's id, and no two rows' announcements share a key. |
| Kafka.EachMessage | src/kafka/kafka.service.ts:58-67 | An absent or empty value is skipped and the callback is not called. Otherwise the value is parsed: a parse failure is caught and logged with the topic. When parsing succeeds the callback gets the parsed message, and a callback failure is caught and logged with the topic. Nothing escapes. |
| Kafka.SetupCalls | src/kafka/kafka.service.ts:53-68 | Connect, subscribe and run are issued in that order, stopping at the step that throws. |
| Kafka.Disconnects | src/kafka/kafka.service.ts:25-27 | One consumer disconnect per registered key, in order. |
| Kafka.TeardownCoversRegistry | src/kafka/kafka.service.ts:23-28 | Teardown disconnects every registered consumer exactly once and nothing else. |
| Kafka.KafkaService.constructor | src/kafka/kafka.service.ts:11-17 | It starts with client id and brokers as given, an empty registry and no broker calls. |
| Kafka.KafkaService.OnModuleInit | src/kafka/kafka.service.ts:19-21 | It makes one producer connect and changes nothing else. A connect that fails is passed on as its error. |
| Kafka.KafkaService.Send | src/kafka/kafka.service.ts:30-40 | It makes exactly one producer send, of the record built for the message. The send's failure is passed on, and the registry is unchanged. |
| Kafka.KafkaService.CreateConsumer | src/kafka/kafka.service.ts:42-71 | A key already registered gives no broker call and no change. Otherwise connect, subscribe and run are awaited in turn. The key is added, with every other entry unchanged, only when all three succeed. A step that throws leaves the registry unchanged and passes its error on. |
| Kafka.KafkaService.OnModuleDestroy | src/kafka/kafka.service.ts:23-28 | The producer is disconnected first, then each registered consumer in registration order. The registry is unchanged. |
| Notifications.EmailGroupId | src/email/consumer/transaction-email.consumer.ts:23 | The e-mail subscription's group is the configured group id followed by "-email". |
| Notifications.TransactionEmailConsumer.OnModuleInit | src/email/consumer/transaction-email.consumer.ts:20-28 | It registers a consumer on `transactions.created` under group `<groupId>-email`, with the registry's no-op and failure behaviour. |
| Notifications.DeriveJobs | src/email/consumer/transaction-email.consumer.ts:63-90 | One e-mail per debited wallet, plus one per credited wallet of a transfer. The debited owner's e-mail comes first and has the row's kind, the debited balance and the credited owner's name. The credited owner's e-mail is written as a DEPOSIT and has the credited balance and the debited owner's name. Every e-mail carries the row's id, amount and time. |
| Notifications.JobsPerKind | src/email/consumer/transaction-email.consumer.ts:63-90 | For rows the ledger writes: a deposit gives no e-mail and a withdrawal gives one, to the debited owner. A transfer gives two: first the debited owner's (TRANSFER, naming the credited owner), then the credited owner's (DEPOSIT, naming the debited owner). |
| Notifications.CommittedDepositSendsNoEmail | src/email/consumer/transaction-email.consumer.ts:63-74 | A deposit the ledger commits produces no e-mail at all. |
| Notifications.FirstAnswer | src/email/consumer/transaction-email.consumer.ts:35-48 | The first of the three lookups that finds the row or throws, with every earlier lookup coming back empty; or none, when all three come back empty. |
| Notifications.RetryLines | src/email/consumer/transaction-email.consumer.ts:50-53 | After the k-th miss, the notice "attempt k of 3, retrying in 1000 ms". |
| Notifications.LateRowScenario | src/email/consumer/transaction-email.consumer.ts:35-54 | A row first visible on the third lookup is found there after two notices. A row never visible is missed by all three lookups. A first lookup that throws ends the loop there, even when a later lookup would find the row. |
| Notifications.Resolve | src/email/consumer/transaction-email.consumer.ts:31-54 | It makes at most three lookups and stops at the first hit or the first throw, which is `FirstAnswer`. A throw gets no notice and no wait. Every miss is followed by a notice and a wait, the last miss included, so a row never found costs three lookups and three waits. |
| Notifications.SendResult | src/email/consumer/transaction-email.consumer.ts:63-90 | Sending the e-mails in turn passes exactly when every send is accepted. Otherwise it fails with the refusal of the last mail attempted. |
| Notifications.AttemptedStopsAtRefusal | src/email/consumer/transaction-email.consumer.ts:63-90 | When the k-th send is the first refused, exactly the first k + 1 mails are sent and no later one. |
| Notifications.AttemptedAllAccepted | src/email/consumer/transaction-email.consumer.ts:63-90 | When every send is accepted, every mail is sent, in order. |
| Notifications.TransactionEmailConsumer.SendAll | src/email/consumer/transaction-email.consumer.ts:63-90 | The sends, awaited in turn: the transport log grows by exactly the attempted mails, and the outcome is `SendResult`. |
| Notifications.TransactionEmailConsumer.HandleTransaction | src/email/consumer/transaction-email.consumer.ts:30-91 | If every lookup comes back empty, there are three notices, three waits, one not-found line and no e-mail. Otherwise there are k notices and k waits before lookup k ends the loop. If lookup k threw, its error leaves the handler, with no not-found line and no e-mail. If it found the row, the row's e-mails are sent in turn until one is refused, and that refusal leaves the handler; every e-mail carries the event's id, since the lookup is by that id. |

## Left out

- **Concurrency.** A sequential model cannot express these races, so every operation is one call on its own.
  - The ledger reads balances outside the commit scope and then writes them blind (`src/transaction/transaction.service.ts:47`, `104-126`).
  - `createConsumer` checks the registry and sets it across several awaits.
- **Floating point.**
  - Balances are converted with `toNumber()` and computed in binary floating point; the model uses exact integers.
  - The templates' `toFixed(2)` and `pt-BR` date formatting are not modelled.
- **Templates.** The markup the three template functions produce is not modelled. A body is the pair (template, data).
- **Foreign calls.** These are abstract:
  - database queries and the rollback of the commit scope (assumed all-or-nothing);
  - the kafkajs producer and consumers;
  - the nodemailer transport;
  - `JSON.stringify`/`JSON.parse` (given as `serialize` and `parse`);
  - `setTimeout` (a wait counter).
- **Identifiers and time.** The database's id generation and clock are replaced by the log position and a `now` parameter. Ids in the source are strings.
- **Configuration and messages.**
  - Environment configuration is not modelled: client id, brokers, group id and relay settings are parameters.
  - `Number(SMTP_PORT)` of a non-numeric port is not modelled.
  - The console text and the message id logged on a successful send are not modelled.
- **Wiring.** The `eachMessage` wrapper and `handleTransaction` are modelled separately. Their composition is not stated as one member: the handler's thrown error is what `EachMessage` receives as a failed callback.
- **Failures not modelled.**
  - A failing producer or consumer disconnect during teardown.
  - A consumer created but left unregistered after a failed set-up step.
- **Out of scope.** The CRUD services for users and wallets, the controllers, the modules, the DTO validation decorators and the seed script.
- Kafka.ConsumerKeyInjective: holds only for topic names without ':'. Kafka's topic naming rule forbids that character. `ConsumerKeyCollidesOnColonTopic` shows the collision without the rule.
- Ledger.TransactionService.DepositWithdraw: a store call that throws (the wallet lookup, the balance write, the row insert) is not modelled. Before the commit scope it would be an error with nothing changed; inside it, a rollback like `PublishFailed` that carries the store's error. Only the producer's failure is modelled. The commit itself failing after a successful producer send (the send is awaited inside the commit scope, before the database commits) is not modelled either: the rows would be rolled back while the `transactions.created` event is already out, announcing a row that never exists. The model's soundness invariant, that every announcement has its row in order, holds only because this path is left out.
- Ledger.TransactionService.Transfer: a store call that throws (the two wallet lookups, the two balance writes, the row insert) is not modelled, with the same two cases as for deposits and withdrawals. The commit itself failing after a successful producer send, which leaves a published event with no row, is not modelled either.
- Ledger.TransactionService.FindById: a store query that throws is not modelled; the same holds for `FindAll`.
- Ledger.TransactionService.FindAll: the store's `findMany` is called without an ordering, so the source promises no row order. The model returns the rows in commit order, which is one order the store may give.
- Ledger.TransactionService.DepositWithdraw: `txType` ranges over the three kinds only. A kind outside the enum, which the source also rejects with "Invalid transaction type", is represented by TRANSFER.

=== FILE: domain.dfy ===
/**
 * The persistent entities shared by the ledger and the notification pipeline:
 * the transaction kinds, the immutable transaction row and the event that
 * announces it on the bus.
 */
module Domain {
  import opened Wrappers

  type WalletId = string

  /** The three kinds of ledger-affecting operation. */
  datatype TransactionType = DEPOSIT | WITHDRAW | TRANSFER

  /** The enum member's name as it is serialized (used in e-mail subjects). */
  function TypeName(t: TransactionType): string
  {
    match t
    case DEPOSIT => "DEPOSIT"
    case WITHDRAW => "WITHDRAW"
    case TRANSFER => "TRANSFER"
  }

  /**
   * A transaction row. Amounts are exact integer cents; `createdAt` is the
   * commit time as given by the store's clock.
   */
  datatype Transaction = Transaction(
    id: nat,
    txType: TransactionType,
    amount: int,
    debitedAccountId: Option<WalletId>,
    creditedAccountId: Option<WalletId>,
    createdAt: int)

  /** Which slots a row of each kind fills: a deposit credits, a withdrawal debits, a transfer does both. */
  predicate SlotRule(tx: Transaction)
  {
    match tx.txType
    case DEPOSIT => tx.creditedAccountId.Some? && tx.debitedAccountId.None?
    case WITHDRAW => tx.debitedAccountId.Some? && tx.creditedAccountId.None?
    case TRANSFER =>
      tx.debitedAccountId.Some? && tx.creditedAccountId.Some? &&
      tx.debitedAccountId.value != tx.creditedAccountId.value
  }

  /** The wallets a row refers to. */
  function References(tx: Transaction): set<WalletId>
  {
    (if tx.debitedAccountId.Some? then {tx.debitedAccountId.value} else {}) +
    (if tx.creditedAccountId.Some? then {tx.creditedAccountId.value} else {})
  }

  /** The topic on which committed transactions are announced. */
  const TRANSACTION_CREATED: string := "transactions.created"

  /** The payload published for every committed transaction. */
  datatype TransactionCreatedEvent = TransactionCreatedEvent(
    id: nat,
    txType: TransactionType,
    amount: int,
    createdAt: int)

  /** The event that announces `tx`. */
  function EventOf(tx: Transaction): TransactionCreatedEvent
  {
    TransactionCreatedEvent(tx.id, tx.txType, tx.amount, tx.createdAt)
  }
}

=== FILE: email_service.dfy ===
/**
 * The notification dispatcher: picks the template for a transaction kind,
 * builds the e-mail (recipient, subject, body) and hands it to the mail
 * transport, logging and rethrowing a transport failure.
 */
module Email {
  import opened Wrappers
  import opened Domain

  /** The data one notification e-mail is rendered from. */
  datatype TransactionEmailData = TransactionEmailData(
    transactionId: nat,
    txType: TransactionType,
    amount: int,
    userEmail: string,
    userName: string,
    walletBalance: Option<int>,
    recipientName: Option<string>,
    createdAt: int)

  datatype Template = DepositTemplate | WithdrawTemplate | TransferTemplate

  /** A rendered body: the template applied to the data (the markup itself is not modelled). */
  datatype Html = Rendered(template: Template, data: TransactionEmailData)

  datatype EmailPayload = EmailPayload(to: string, subject: string, html: Html)

  /** What the transport is asked to deliver. */
  datatype Mail = Mail(from: string, to: string, subject: string, html: Html)

  /** The relay settings the transport is created with. */
  datatype SmtpConfig = SmtpConfig(host: string, port: int, secure: bool, user: string, pass: string)

  datatype MailError = TransportRejected(mail: Mail)

  /** Lines the service writes to the console. */
  datatype ConsoleLine = Sent | SendFailed(error: MailError)

  /** The template for each kind of transaction (the mapping is closed over the three kinds). */
  function GetTemplate(t: TransactionType): Template
  {
    match t
    case DEPOSIT => DepositTemplate
    case WITHDRAW => WithdrawTemplate
    case TRANSFER => TransferTemplate
  }

  /** The kind of transaction a template is written for. */
  function Describes(tpl: Template): TransactionType
  {
    match tpl
    case DepositTemplate => DEPOSIT
    case WithdrawTemplate => WITHDRAW
    case TransferTemplate => TRANSFER
  }

  /** Template selection is a bijection: every kind has its own template and every template is used. */
  lemma TemplateSelectionBijective(t: TransactionType, tpl: Template)
    ensures Describes(GetTemplate(t)) == t
    ensures GetTemplate(Describes(tpl)) == tpl
    ensures GetTemplate(t) == tpl <==> Describes(tpl) == t
  {
  }

  const SUBJECT_PREFIX: string := "Transa\U{00E7}\U{00E3}o "

  /** The transaction kind a subject line names, if it is one of ours. */
  function SubjectType(subject: string): Option<TransactionType>
  {
    if |subject| < |SUBJECT_PREFIX| || subject[..|SUBJECT_PREFIX|] != SUBJECT_PREFIX then None
    else
      var name := subject[|SUBJECT_PREFIX|..];
      if name == TypeName(DEPOSIT) then Some(DEPOSIT)
      else if name == TypeName(WITHDRAW) then Some(WITHDRAW)
      else if name == TypeName(TRANSFER) then Some(TRANSFER)
      else None
  }

  /** The payload of sendTransactionEmail: addressed to the data's user, subject naming the kind, body from the kind's template. */
  function BuildPayload(data: TransactionEmailData): (p: EmailPayload)
    ensures p.to == data.userEmail
    ensures |p.subject| > |SUBJECT_PREFIX| && p.subject[..|SUBJECT_PREFIX|] == SUBJECT_PREFIX
    ensures SubjectType(p.subject) == Some(data.txType)
    ensures p.html.data == data && Describes(p.html.template) == data.txType
  {
    var subject := SUBJECT_PREFIX + TypeName(data.txType);
    assert subject[..|SUBJECT_PREFIX|] == SUBJECT_PREFIX;
    assert subject[|SUBJECT_PREFIX|..] == TypeName(data.txType);
    EmailPayload(data.userEmail, subject, Rendered(GetTemplate(data.txType), data))
  }

  /** The sender line, built from the relay user. */
  function Sender(smtpUser: string): string
  {
    "\"Wallet Service\" <" + smtpUser + ">"
  }

  function ToMail(smtpUser: string, p: EmailPayload): Mail
  {
    Mail(Sender(smtpUser), p.to, p.subject, p.html)
  }

  /** The mail sendTransactionEmail hands to the transport for `data`. */
  function MailFor(smtpUser: string, data: TransactionEmailData): Mail
  {
    ToMail(smtpUser, BuildPayload(data))
  }

  /**
   * The outbound mail transport. Whether the relay accepts a mail is given by
   * `accepts`; `sent` records every send attempted through it.
   */
  class Transport {
    const config: SmtpConfig
    const accepts: Mail -> bool
    var sent: seq<Mail>

    constructor (config: SmtpConfig, accepts: Mail -> bool)
      ensures this.config == config && this.accepts == accepts && sent == []
    {
      this.config := config;
      this.accepts := accepts;
      sent := [];
    }

    method SendMail(mail: Mail) returns (ok: bool)
      modifies this
      ensures ok == accepts(mail)
      ensures sent == old(sent) + [mail]
    {
      sent := sent + [mail];
      ok := accepts(mail);
    }
  }

  class EmailService {
    const transporter: Transport
    const smtpUser: string
    var console: seq<ConsoleLine>

    /** The transport is created from the relay settings; it is secure exactly when the port is 465. */
    constructor (host: string, port: int, user: string, pass: string, accepts: Mail -> bool)
      ensures fresh(transporter)
      ensures transporter.config == SmtpConfig(host, port, port == 465, user, pass)
      ensures transporter.accepts == accepts && transporter.sent == []
      ensures smtpUser == user && console == []
    {
      transporter := new Transport(SmtpConfig(host, port, port == 465, user, pass), accepts);
      smtpUser := user;
      console := [];
    }

    /** sendEmail: one transport send; a failure is logged and rethrown, a success is logged. */
    method SendEmail(payload: EmailPayload) returns (r: Outcome<MailError>)
      modifies this, transporter
      ensures transporter.sent == old(transporter.sent) + [ToMail(smtpUser, payload)]
      ensures r.Pass? <==> transporter.accepts(ToMail(smtpUser, payload))
      ensures r.Fail? ==> r.error == TransportRejected(ToMail(smtpUser, payload))
      ensures console == old(console) + [if r.Pass? then Sent else SendFailed(r.error)]
    {
      var mail := ToMail(smtpUser, payload);
      var ok := transporter.SendMail(mail);
      if ok {
        console := console + [Sent];
        r := Pass;
      } else {
        var error := TransportRejected(mail);
        console := console + [SendFailed(error)];
        r := Fail(error);
      }
    }

    /** sendTransactionEmail: exactly one transport send, of the payload built for `data`; its failure propagates. */
    method SendTransactionEmail(data: TransactionEmailData) returns (r: Outcome<MailError>)
      modifies this, transporter
      ensures transporter.sent == old(transporter.sent) + [MailFor(smtpUser, data)]
      ensures r.Pass? <==> transporter.accepts(MailFor(smtpUser, data))
      ensures r.Fail? ==> r.error == TransportRejected(MailFor(smtpUser, data))
      ensures |console| == |old(console)| + 1
    {
      var payload := BuildPayload(data);
      r := SendEmail(payload);
    }
  }
}

=== FILE: kafka_service.dfy ===
/**
 * The event-bus adapter: one producer, a registry of consumers keyed by
 * `topic:groupId`, the record built for an outgoing message, the guarded
 * per-message handler, and teardown. The broker is abstract: every call
 * made to it is recorded in `trace`, and whether a call fails is given.
 */
module Kafka {
  import opened Wrappers

  datatype KafkaMessage = KafkaMessage(key: Option<string>, value: string)

  datatype ProducerRecord = ProducerRecord(topic: string, messages: seq<KafkaMessage>)

  /** A registered consumer: the group it joined and the topic it reads. */
  datatype ConsumerHandle = ConsumerHandle(groupId: string, topic: string)

  /** The calls made to the broker. */
  datatype BrokerCall =
    | ProducerConnect
    | ProducerSend(record: ProducerRecord)
    | ProducerDisconnect
    | ConsumerConnect(groupId: string)
    | ConsumerSubscribe(groupId: string, topic: string)
    | ConsumerRun(groupId: string)
    | ConsumerDisconnect(key: string)

  /** The consumer set-up steps, in the order they are awaited. */
  datatype Step = Connect | Subscribe | Run

  /** A broker call that threw. */
  datatype BrokerError = BrokerError(failed: BrokerCall)

  /** The outcome of handling one received message; none of them escapes the handler. */
  datatype Delivery<M> =
    | Skipped
    | Handled(message: M)
    | ParseFailed(topic: string)
    | CallbackFailed(message: M, topic: string)

  function ConsumerKey(topic: string, groupId: string): string
  {
    topic + ":" + groupId
  }

  /** Kafka topic names are made of letters, digits, '.', '_' and '-'; in particular they hold no ':'. */
  predicate LegalTopic(topic: string)
  {
    forall i | 0 <= i < |topic| :: topic[i] != ':'
  }

  /** The position of the first ':' in `s`, or |s| when there is none. */
  function ColonIndex(s: string): (n: nat)
    ensures n <= |s|
    ensures n < |s| ==> s[n] == ':'
  {
    if s == [] then 0 else if s[0] == ':' then 0 else 1 + ColonIndex(s[1..])
  }

  lemma {:induction false} ColonIndexOfKey(topic: string, groupId: string)
    requires LegalTopic(topic)
    ensures ColonIndex(ConsumerKey(topic, groupId)) == |topic|
  {
    if topic != [] {
      var rest := topic[1..];
      assert LegalTopic(rest) by {
        forall i | 0 <= i < |rest| ensures rest[i] != ':' {
          assert rest[i] == topic[i + 1];
        }
      }
      assert ConsumerKey(topic, groupId)[1..] == ConsumerKey(rest, groupId);
      ColonIndexOfKey(rest, groupId);
    }
  }

  /** For legal topic names the registry key identifies the (topic, group) pair. */
  lemma ConsumerKeyInjective(t1: string, g1: string, t2: string, g2: string)
    requires LegalTopic(t1) && LegalTopic(t2)
    requires ConsumerKey(t1, g1) == ConsumerKey(t2, g2)
    ensures t1 == t2 && g1 == g2
  {
    var k := ConsumerKey(t1, g1);
    ColonIndexOfKey(t1, g1);
    ColonIndexOfKey(t2, g2);
    assert t1 == k[..|t1|] == t2;
    assert g1 == k[|t1| + 1..] == g2;
  }

  /** Without the naming rule two different pairs share a key. */
  lemma ConsumerKeyCollidesOnColonTopic()
    ensures ConsumerKey("a:b", "c") == ConsumerKey("a", "b:c")
    ensures !LegalTopic("a:b")
  {
    assert ("a:b")[1] == ':';
  }

  /**
   * The record `send` hands to the producer: one message on `topic`, keyed
   * by the message's `id` rendered as text (`text`) when it has one and
   * unkeyed otherwise, carrying the serialized message.
   */
  function BuildRecord<M, I>(topic: string, message: M, id: M -> Option<I>, text: I -> string,
                             serialize: M -> string): (r: ProducerRecord)
    ensures r.topic == topic && |r.messages| == 1
    ensures r.messages[0].key.None? <==> id(message).None?
    ensures r.messages[0].key.Some? ==> r.messages[0].key.value == text(id(message).value)
    ensures r.messages[0].value == serialize(message)
  {
    var key := if id(message).Some? then Some(text(id(message).value)) else None;
    ProducerRecord(topic, [KafkaMessage(key, serialize(message))])
  }

  /**
   * Messages with the same id get the same partition key, whatever else they
   * carry and whichever topic they go to; messages with different ids get
   * different keys when the id's text form is one-to-one.
   */
  lemma SameIdSameKey<M, I(!new)>(topic1: string, topic2: string, m1: M, m2: M, id: M -> Option<I>,
                            text: I -> string, serialize: M -> string)
    requires forall a: I, b: I :: text(a) == text(b) ==> a == b
    ensures var k1 := BuildRecord(topic1, m1, id, text, serialize).messages[0].key;
            var k2 := BuildRecord(topic2, m2, id, text, serialize).messages[0].key;
            (k1 == k2 <==> id(m1) == id(m2))
  {
    var k1 := BuildRecord(topic1, m1, id, text, serialize).messages[0].key;
    var k2 := BuildRecord(topic2, m2, id, text, serialize).messages[0].key;
    if k1 == k2 && k1.Some? {
      var a, b := id(m1).value, id(m2).value;
      assert text(a) == text(b);
      assert a == b;
      assert id(m1) == Some(a) && id(m2) == Some(b);
    }
  }

  /**
   * The eachMessage handler: an absent or empty value is skipped without
   * calling back; otherwise the value is parsed and passed to the callback.
   * `parse` gives None where parsing throws, `callback` gives false where
   * the callback throws; both are caught and logged with the topic.
   */
  function EachMessage<M>(topic: string, value: Option<string>, parse: string -> Option<M>,
                          callback: M -> bool): (d: Delivery<M>)
    ensures d.Skipped? <==> value.None? || value.value == ""
    ensures d.ParseFailed? <==> value.Some? && value.value != "" && parse(value.value).None?
    ensures d.ParseFailed? ==> d.topic == topic
    ensures d.Handled? || d.CallbackFailed? ==>
              value.Some? && value.value != "" && parse(value.value) == Some(d.message) &&
              (d.Handled? <==> callback(d.message))
    ensures d.CallbackFailed? ==> d.topic == topic
  {
    if value.None? || value.value == "" then Skipped
    else
      match parse(value.value)
      case None => ParseFailed(topic)
      case Some(m) => if callback(m) then Handled(m) else CallbackFailed(m, topic)
  }

  /** The broker calls of a consumer set-up that stops at the failing step, if any. */
  function SetupCalls(topic: string, groupId: string, failAt: Option<Step>): (calls: seq<BrokerCall>)
    ensures 1 <= |calls| <= 3
    ensures calls[0] == ConsumerConnect(groupId)
    ensures |calls| == 3 <==> failAt.None? || failAt == Some(Run)
    ensures |calls| >= 2 ==> calls[1] == ConsumerSubscribe(groupId, topic)
    ensures |calls| == 3 ==> calls[2] == ConsumerRun(groupId)
  {
    match failAt
    case Some(Connect) => [ConsumerConnect(groupId)]
    case Some(Subscribe) => [ConsumerConnect(groupId), ConsumerSubscribe(groupId, topic)]
    case _ => [ConsumerConnect(groupId), ConsumerSubscribe(groupId, topic), ConsumerRun(groupId)]
  }

  /** The consumer disconnects of teardown, one per key, in order. */
  function Disconnects(keys: seq<string>): (calls: seq<BrokerCall>)
    ensures |calls| == |keys|
    ensures forall i | 0 <= i < |keys| :: calls[i] == ConsumerDisconnect(keys[i])
  {
    if keys == [] then [] else [ConsumerDisconnect(keys[0])] + Disconnects(keys[1..])
  }

  predicate Distinct(keys: seq<string>)
  {
    forall i, j | 0 <= i < j < |keys| :: keys[i] != keys[j]
  }

  lemma {:induction false} DistinctCardinality(keys: seq<string>)
    requires Distinct(keys)
    ensures |set k | k in keys| == |keys|
  {
    if keys != [] {
      var rest := keys[1..];
      DistinctCardinality(rest);
      assert (set k | k in keys) == (set k | k in rest) + {keys[0]};
      assert keys[0] !in (set k | k in rest);
    }
  }

  /** Teardown disconnects every registered consumer exactly once. */
  lemma TeardownCoversRegistry(consumers: map<string, ConsumerHandle>, order: seq<string>)
    requires Distinct(order)
    requires forall k :: k in consumers <==> k in order
    ensures |Disconnects(order)| == |consumers|
    ensures forall k :: ConsumerDisconnect(k) in Disconnects(order) <==> k in consumers
  {
    DistinctCardinality(order);
    assert consumers.Keys == set k | k in order;
    forall k ensures ConsumerDisconnect(k) in Disconnects(order) <==> k in consumers {
      if k in order {
        var i :| 0 <= i < |order| && order[i] == k;
        assert Disconnects(order)[i] == ConsumerDisconnect(k);
      }
    }
  }

  class KafkaService {
    const clientId: string
    const brokers: seq<string>
    /** The registered consumers by `topic:groupId`. */
    var consumers: map<string, ConsumerHandle>
    /** The registered keys in insertion order, the order in which the source's Map is iterated. */
    var order: seq<string>
    /** Every call made to the broker, in order. */
    var trace: seq<BrokerCall>

    ghost predicate Valid()
      reads this
    {
      Distinct(order) && forall k :: k in consumers <==> k in order
    }

    constructor (clientId: string, brokers: seq<string>)
      ensures Valid()
      ensures this.clientId == clientId && this.brokers == brokers
      ensures consumers == map[] && order == [] && trace == []
    {
      this.clientId := clientId;
      this.brokers := brokers;
      consumers, order, trace := map[], [], [];
    }

    /** onModuleInit: connect the producer; a failing connect propagates. `ok` is whether the broker accepts it. */
    method OnModuleInit(ok: bool) returns (r: Outcome<BrokerError>)
      modifies this
      ensures trace == old(trace) + [ProducerConnect]
      ensures r == if ok then Pass else Fail(BrokerError(ProducerConnect))
      ensures consumers == old(consumers) && order == old(order)
    {
      trace := trace + [ProducerConnect];
      r := if ok then Pass else Fail(BrokerError(ProducerConnect));
    }

    /** send: exactly one producer send of the record built for `message`; its failure propagates. */
    method Send<M, I>(topic: string, message: M, id: M -> Option<I>, text: I -> string, serialize: M -> string,
                      ok: bool)
      returns (r: Outcome<BrokerError>)
      modifies this
      ensures trace == old(trace) + [ProducerSend(BuildRecord(topic, message, id, text, serialize))]
      ensures r == if ok then Pass else Fail(BrokerError(ProducerSend(BuildRecord(topic, message, id, text, serialize))))
      ensures consumers == old(consumers) && order == old(order)
    {
      var record := BuildRecord(topic, message, id, text, serialize);
      trace := trace + [ProducerSend(record)];
      r := if ok then Pass else Fail(BrokerError(ProducerSend(record)));
    }

    /**
     * createConsumer: a key already registered is left alone and nothing is
     * called; otherwise connect, subscribe and run are awaited in turn and the
     * consumer is registered only when all three succeed. `failAt` is the
     * step whose call throws, if any.
     */
    method CreateConsumer(topic: string, groupId: string, failAt: Option<Step>) returns (r: Outcome<BrokerError>)
      requires Valid()
      modifies this
      ensures Valid()
      ensures ConsumerKey(topic, groupId) in old(consumers) ==>
                r.Pass? && consumers == old(consumers) && order == old(order) && trace == old(trace)
      ensures ConsumerKey(topic, groupId) !in old(consumers) ==>
                && trace == old(trace) + SetupCalls(topic, groupId, failAt)
                && (r.Pass? <==> failAt.None?)
                && (r.Fail? ==> r.error == BrokerError(SetupCalls(topic, groupId, failAt)[|SetupCalls(topic, groupId, failAt)| - 1]))
                && consumers == (if r.Pass? then old(consumers)[ConsumerKey(topic, groupId) := ConsumerHandle(groupId, topic)]
                                 else old(consumers))
                && order == (if r.Pass? then old(order) + [ConsumerKey(topic, groupId)] else old(order))
    {
      var consumerKey := ConsumerKey(topic, groupId);
      if consumerKey in consumers {
        return Pass;
      }
      trace := trace + [ConsumerConnect(groupId)];
      if failAt == Some(Connect) {
        return Fail(BrokerError(ConsumerConnect(groupId)));
      }
      trace := trace + [ConsumerSubscribe(groupId, topic)];
      if failAt == Some(Subscribe) {
        return Fail(BrokerError(ConsumerSubscribe(groupId, topic)));
      }
      trace := trace + [ConsumerRun(groupId)];
      if failAt == Some(Run) {
        return Fail(BrokerError(ConsumerRun(groupId)));
      }
      consumers := consumers[consumerKey := ConsumerHandle(groupId, topic)];
      order := order + [consumerKey];
      r := Pass;
    }

    /** onModuleDestroy: the producer is disconnected first, then each registered consumer in insertion order. */
    method OnModuleDestroy()
      requires Valid()
      modifies this
      ensures Valid()
      ensures trace == old(trace) + [ProducerDisconnect] + Disconnects(order)
      ensures consumers == old(consumers) && order == old(order)
    {
      trace := trace + [ProducerDisconnect];
      var i := 0;
      while i < |order|
        invariant 0 <= i <= |order|
        invariant trace == old(trace) + [ProducerDisconnect] + Disconnects(order[..i])
        invariant consumers == old(consumers) && order == old(order)
      {
        assert Disconnects(order[..i + 1]) == Disconnects(order[..i]) + [ConsumerDisconnect(order[i])];
        trace := trace + [ConsumerDisconnect(order[i])];
        i := i + 1;
      }
      assert order[..i] == order;
    }
  }
}

=== FILE: transaction_email_consumer.dfy ===
/**
 * The notification consumer: for each `transactions.created` event it looks
 * the transaction up (at most three times, waiting after every miss), then
 * derives the e-mails from the row it found and sends them one after the
 * other, stopping at the first send that throws.
 *
 * The store's answers are given as `lookup`, where `lookup(i)` is what the
 * i-th query for the event's id gives (the row, nothing, or a thrown error):
 * a row it gives carries that id. Waits are counted, not slept.
 */
module Notifications {
  import opened Wrappers
  import opened Domain
  import opened Email
  import Kafka
  import Ledger

  const MAX_RETRIES: nat := 3
  const RETRY_DELAY_MS: nat := 1000

  datatype User = User(name: string, email: string)

  /** A wallet joined with its owner. */
  datatype Account = Account(id: WalletId, balance: int, user: User)

  /** A transaction row joined with its wallets and their owners, as the consumer reads it. */
  datatype StoredTransaction = StoredTransaction(
    id: nat,
    txType: TransactionType,
    amount: int,
    debitedAccount: Option<Account>,
    creditedAccount: Option<Account>,
    createdAt: int)

  /** What one lookup of the event's row gives: the row, nothing yet, or the error the store threw. */
  datatype Fetch = Found(row: StoredTransaction) | Absent | Threw(cause: string)

  /** What leaves handleTransaction: a lookup's error, or the first refused send's error. */
  datatype HandlerError = LookupFailed(cause: string) | SendRefused(mailError: MailError)

  /** Lines the consumer writes to the console. */
  datatype LogLine =
    | Retrying(eventId: nat, attempt: nat, maxRetries: nat, delayMs: nat)
    | NotFoundAfterRetries(eventId: nat, retries: nat)

  /** The consumer group of the e-mail subscription: the configured group id with "-email" appended. */
  function EmailGroupId(configured: string): (g: string)
    ensures |g| == |configured| + 6
    ensures g[..|configured|] == configured && g[|configured|..] == "-email"
  {
    var g := configured + "-email";
    assert g[..|configured|] == configured;
    g
  }

  function AccountOf(id: Option<WalletId>, accounts: map<WalletId, Account>): Option<Account>
  {
    if id.Some? && id.value in accounts then Some(accounts[id.value]) else None
  }

  /** The row as the consumer's query returns it: each filled slot joined with its wallet and owner. */
  function Join(tx: Transaction, accounts: map<WalletId, Account>): StoredTransaction
  {
    StoredTransaction(tx.id, tx.txType, tx.amount,
                      AccountOf(tx.debitedAccountId, accounts), AccountOf(tx.creditedAccountId, accounts),
                      tx.createdAt)
  }

  function NameOf(a: Option<Account>): Option<string>
  {
    if a.Some? then Some(a.value.user.name) else None
  }

  /** The e-mail to the debited wallet's owner. */
  function DebitJob(t: StoredTransaction, debited: Account): TransactionEmailData
  {
    TransactionEmailData(t.id, t.txType, t.amount, debited.user.email, debited.user.name,
                         Some(debited.balance), NameOf(t.creditedAccount), t.createdAt)
  }

  /** The e-mail to the credited wallet's owner of a transfer, written as a deposit. */
  function CreditJob(t: StoredTransaction, credited: Account): TransactionEmailData
  {
    TransactionEmailData(t.id, DEPOSIT, t.amount, credited.user.email, credited.user.name,
                         Some(credited.balance), NameOf(t.debitedAccount), t.createdAt)
  }

  /**
   * The e-mails for a resolved row: one to the debited owner when there is a
   * debited wallet, then, for a transfer with a credited wallet, one to the
   * credited owner.
   */
  function DeriveJobs(t: StoredTransaction): (jobs: seq<TransactionEmailData>)
    ensures |jobs| == (if t.debitedAccount.Some? then 1 else 0) +
                      (if t.txType == TRANSFER && t.creditedAccount.Some? then 1 else 0)
    ensures forall j | j in jobs :: j.transactionId == t.id && j.amount == t.amount && j.createdAt == t.createdAt
    ensures t.debitedAccount.Some? ==>
              var d := t.debitedAccount.value;
              && jobs[0].txType == t.txType
              && jobs[0].userEmail == d.user.email && jobs[0].userName == d.user.name
              && jobs[0].walletBalance == Some(d.balance)
              && jobs[0].recipientName == NameOf(t.creditedAccount)
    ensures t.txType == TRANSFER && t.creditedAccount.Some? ==>
              var c := t.creditedAccount.value;
              && jobs[|jobs| - 1].txType == DEPOSIT
              && jobs[|jobs| - 1].userEmail == c.user.email && jobs[|jobs| - 1].userName == c.user.name
              && jobs[|jobs| - 1].walletBalance == Some(c.balance)
              && jobs[|jobs| - 1].recipientName == NameOf(t.debitedAccount)
  {
    (if t.debitedAccount.Some? then [DebitJob(t, t.debitedAccount.value)] else []) +
    (if t.txType == TRANSFER && t.creditedAccount.Some? then [CreditJob(t, t.creditedAccount.value)] else [])
  }

  /**
   * For a row the ledger writes, the number of e-mails is fixed by its kind:
   * none for a deposit (it has no debited wallet), one for a withdrawal, two
   * for a transfer, the debited owner's first.
   */
  lemma JobsPerKind(tx: Transaction, accounts: map<WalletId, Account>)
    requires SlotRule(tx) && References(tx) <= accounts.Keys
    ensures var jobs := DeriveJobs(Join(tx, accounts));
            && (tx.txType == DEPOSIT ==> jobs == [])
            && (tx.txType == WITHDRAW ==>
                  |jobs| == 1 && jobs[0].txType == WITHDRAW &&
                  jobs[0].userEmail == accounts[tx.debitedAccountId.value].user.email &&
                  jobs[0].recipientName.None?)
            && (tx.txType == TRANSFER ==>
                  && |jobs| == 2
                  && jobs[0].txType == TRANSFER
                  && jobs[0].userEmail == accounts[tx.debitedAccountId.value].user.email
                  && jobs[0].recipientName == Some(accounts[tx.creditedAccountId.value].user.name)
                  && jobs[1].txType == DEPOSIT
                  && jobs[1].userEmail == accounts[tx.creditedAccountId.value].user.email
                  && jobs[1].recipientName == Some(accounts[tx.debitedAccountId.value].user.name))
            && (forall j | j in jobs :: j.transactionId == tx.id && j.amount == tx.amount && j.createdAt == tx.createdAt)
  {
    if tx.debitedAccountId.Some? {
      assert tx.debitedAccountId.value in References(tx);
    }
    if tx.creditedAccountId.Some? {
      assert tx.creditedAccountId.value in References(tx);
    }
  }

  /** A deposit the ledger commits produces no e-mail at all. */
  lemma CommittedDepositSendsNoEmail(s: Ledger.Store, walletId: WalletId, amount: int, now: int,
                                     accounts: map<WalletId, Account>)
    ensures var e := Ledger.DepositWithdrawSpec(s, walletId, amount, DEPOSIT, now, true);
            e.Committed? ==> DeriveJobs(Join(e.tx, accounts)) == []
  {
  }

  /**
   * The first attempt, from `i` on and below MAX_RETRIES, whose lookup ends
   * the loop: it finds the row or throws.
   */
  function FirstAnswer(lookup: nat -> Fetch, i: nat): (r: Option<nat>)
    decreases MAX_RETRIES - i
    ensures r.Some? ==> i <= r.value < MAX_RETRIES && !lookup(r.value).Absent?
    ensures r.Some? ==> forall j | i <= j < r.value :: lookup(j).Absent?
    ensures r.None? ==> forall j | i <= j < MAX_RETRIES :: lookup(j).Absent?
  {
    if i >= MAX_RETRIES then None
    else if !lookup(i).Absent? then Some(i)
    else FirstAnswer(lookup, i + 1)
  }

  /** The retry notices for the first `n` misses. */
  function RetryLines(eventId: nat, n: nat): (lines: seq<LogLine>)
    ensures |lines| == n
    ensures forall i | 0 <= i < n :: lines[i] == Retrying(eventId, i + 1, MAX_RETRIES, RETRY_DELAY_MS)
  {
    seq(n, (i: nat) => Retrying(eventId, i + 1, MAX_RETRIES, RETRY_DELAY_MS))
  }

  /**
   * A row that becomes visible on the third lookup is found there, after two
   * misses and two waits; a row that never becomes visible is missed by all
   * three lookups; a first lookup that throws ends the loop at once, even
   * when a later lookup would have found the row.
   */
  lemma LateRowScenario(t: StoredTransaction, eventId: nat, cause: string)
    ensures var late := (i: nat) => if i < 2 then Absent else Found(t);
            FirstAnswer(late, 0) == Some(2)
    ensures RetryLines(eventId, 2) == [Retrying(eventId, 1, 3, 1000), Retrying(eventId, 2, 3, 1000)]
    ensures var never := (i: nat) => Absent;
            FirstAnswer(never, 0).None?
    ensures var failing := (i: nat) => if i == 0 then Threw(cause) else Found(t);
            FirstAnswer(failing, 0) == Some(0)
  {
    var late: nat -> Fetch := (i: nat) => if i < 2 then Absent else Found(t);
    assert FirstAnswer(late, 2) == Some(2);
    var never: nat -> Fetch := (i: nat) => Absent;
    assert FirstAnswer(never, 3).None?;
  }

  /**
   * The retry loop: looks up at most MAX_RETRIES times, stops at the first
   * hit or at the first lookup that throws, and waits (and logs a notice)
   * after every miss, the last one included.
   */
  method Resolve(eventId: nat, lookup: nat -> Fetch)
    returns (fetched: Fetch, lookups: nat, waits: nat, lines: seq<LogLine>)
    ensures 1 <= lookups <= MAX_RETRIES
    ensures fetched == lookup(lookups - 1)
    ensures forall j | 0 <= j < lookups - 1 :: lookup(j).Absent?
    ensures fetched.Absent? ==> lookups == MAX_RETRIES
    ensures waits == if fetched.Absent? then lookups else lookups - 1
    ensures FirstAnswer(lookup, 0) == if fetched.Absent? then None else Some(lookups - 1)
    ensures lines == RetryLines(eventId, waits)
  {
    fetched, lookups, waits, lines := Absent, 0, 0, [];
    var i := 0;
    while i < MAX_RETRIES
      invariant 0 <= i <= MAX_RETRIES
      invariant fetched.Absent? && lookups == i && waits == i
      invariant forall j | 0 <= j < i :: lookup(j).Absent?
      invariant lines == RetryLines(eventId, i)
    {
      fetched := lookup(i);
      lookups := lookups + 1;
      if !fetched.Absent? {
        break;
      }
      lines := lines + [Retrying(eventId, i + 1, MAX_RETRIES, RETRY_DELAY_MS)];
      waits := waits + 1;
      i := i + 1;
    }
  }

  /** The mails for `jobs`, one each, in order. */
  function Mails(smtpUser: string, jobs: seq<TransactionEmailData>): (mails: seq<Mail>)
    ensures |mails| == |jobs|
    ensures forall i | 0 <= i < |jobs| :: mails[i] == MailFor(smtpUser, jobs[i])
  {
    if jobs == [] then [] else [MailFor(smtpUser, jobs[0])] + Mails(smtpUser, jobs[1..])
  }

  /**
   * The mails the transport is asked to send for `jobs` when the sends are
   * awaited in turn: every mail up to and including the first one refused.
   */
  function Attempted(smtpUser: string, accepts: Mail -> bool, jobs: seq<TransactionEmailData>): (mails: seq<Mail>)
    ensures |mails| <= |jobs|
    ensures jobs != [] ==> mails != [] && mails[0] == MailFor(smtpUser, jobs[0])
  {
    if jobs == [] then []
    else
      var m := MailFor(smtpUser, jobs[0]);
      if accepts(m) then [m] + Attempted(smtpUser, accepts, jobs[1..]) else [m]
  }

  /** Every mail of `jobs` is accepted exactly when the first one is and every mail of the rest is. */
  lemma AllAcceptedTail(smtpUser: string, accepts: Mail -> bool, jobs: seq<TransactionEmailData>)
    requires jobs != []
    ensures (forall j | 0 <= j < |jobs| :: accepts(MailFor(smtpUser, jobs[j]))) <==>
            accepts(MailFor(smtpUser, jobs[0])) && forall j | 0 <= j < |jobs| - 1 :: accepts(MailFor(smtpUser, jobs[1..][j]))
  {
    assert forall j | 1 <= j < |jobs| :: jobs[j] == jobs[1..][j - 1];
  }

  /**
   * How awaiting the sends of `jobs` in turn ends: it passes when every send
   * is accepted, and otherwise fails with the first refusal, which is the
   * last mail attempted.
   */
  function SendResult(smtpUser: string, accepts: Mail -> bool, jobs: seq<TransactionEmailData>): (r: Outcome<MailError>)
    ensures r.Pass? <==> forall j | 0 <= j < |jobs| :: accepts(MailFor(smtpUser, jobs[j]))
    ensures r.Fail? ==> var mails := Attempted(smtpUser, accepts, jobs);
                        r.error == TransportRejected(mails[|mails| - 1]) && !accepts(r.error.mail)
  {
    if jobs == [] then Pass
    else
      var m := MailFor(smtpUser, jobs[0]);
      if !accepts(m) then Fail(TransportRejected(m))
      else
        var rest := jobs[1..];
        AllAcceptedTail(smtpUser, accepts, jobs);
        assert Attempted(smtpUser, accepts, jobs) == [m] + Attempted(smtpUser, accepts, rest);
        SendResult(smtpUser, accepts, rest)
  }

  /**
   * One more send, seen from the mails still to be attempted: `log` is the
   * transport's log after sending the i-th mail to a log that was `before`.
   * An accepted send moves its mail from the remainder to the log, a refused
   * one ends the remainder and the outcome.
   */
  lemma AttemptedStep(smtpUser: string, accepts: Mail -> bool, jobs: seq<TransactionEmailData>, i: nat,
                      before: seq<Mail>, log: seq<Mail>)
    requires i < |jobs|
    requires log == before + [MailFor(smtpUser, jobs[i])]
    ensures accepts(MailFor(smtpUser, jobs[i])) ==>
              && before + Attempted(smtpUser, accepts, jobs[i..]) == log + Attempted(smtpUser, accepts, jobs[i + 1..])
              && SendResult(smtpUser, accepts, jobs[i..]) == SendResult(smtpUser, accepts, jobs[i + 1..])
    ensures !accepts(MailFor(smtpUser, jobs[i])) ==>
              && before + Attempted(smtpUser, accepts, jobs[i..]) == log
              && SendResult(smtpUser, accepts, jobs[i..]) == Fail(TransportRejected(MailFor(smtpUser, jobs[i])))
  {
    var rest, m := jobs[i..], MailFor(smtpUser, jobs[i]);
    assert rest[0] == jobs[i] && rest[1..] == jobs[i + 1..];
    if accepts(m) {
      assert Attempted(smtpUser, accepts, rest) == [m] + Attempted(smtpUser, accepts, jobs[i + 1..]);
      ConcatAssociative(before, [m], Attempted(smtpUser, accepts, jobs[i + 1..]));
      assert SendResult(smtpUser, accepts, rest) == SendResult(smtpUser, accepts, jobs[i + 1..]);
    } else {
      assert Attempted(smtpUser, accepts, rest) == [m];
      assert SendResult(smtpUser, accepts, rest) == Fail(TransportRejected(m));
    }
  }

  /** Concatenation of sequences is associative. */
  lemma ConcatAssociative<T>(a: seq<T>, b: seq<T>, c: seq<T>)
    ensures a + (b + c) == (a + b) + c
  {
  }

  /** Dropping the head of a prefix is the prefix of the tail. */
  lemma PrefixTail<T>(s: seq<T>, k: nat)
    requires k < |s|
    ensures s[..k + 1][0] == s[0] && s[..k + 1][1..] == s[1..][..k]
  {
  }

  /** An accepted first send puts its mail ahead of what the remaining sends attempt. */
  lemma AcceptedHead(smtpUser: string, accepts: Mail -> bool, jobs: seq<TransactionEmailData>, k: nat)
    requires 0 < k < |jobs|
    requires accepts(MailFor(smtpUser, jobs[0]))
    requires Attempted(smtpUser, accepts, jobs[1..]) == Mails(smtpUser, jobs[1..][..k])
    ensures Attempted(smtpUser, accepts, jobs) == Mails(smtpUser, jobs[..k + 1])
  {
    PrefixTail(jobs, k);
  }

  /** When the k-th send is the first refused, exactly the first k + 1 mails are attempted and the rest are not. */
  lemma {:induction false} AttemptedStopsAtRefusal(smtpUser: string, accepts: Mail -> bool,
                                                   jobs: seq<TransactionEmailData>, k: nat)
    requires k < |jobs|
    requires forall j | 0 <= j < k :: accepts(MailFor(smtpUser, jobs[j]))
    requires !accepts(MailFor(smtpUser, jobs[k]))
    ensures Attempted(smtpUser, accepts, jobs) == Mails(smtpUser, jobs[..k + 1])
  {
    if k == 0 {
      assert jobs[..1] == [jobs[0]];
    } else {
      var rest := jobs[1..];
      forall j | 0 <= j < k - 1 ensures accepts(MailFor(smtpUser, rest[j])) {
        assert rest[j] == jobs[j + 1];
      }
      AttemptedStopsAtRefusal(smtpUser, accepts, rest, k - 1);
      AcceptedHead(smtpUser, accepts, jobs, k);
    }
  }

  /** When every send succeeds, every mail is attempted, in order. */
  lemma {:induction false} AttemptedAllAccepted(smtpUser: string, accepts: Mail -> bool,
                                                jobs: seq<TransactionEmailData>)
    requires forall j | 0 <= j < |jobs| :: accepts(MailFor(smtpUser, jobs[j]))
    ensures Attempted(smtpUser, accepts, jobs) == Mails(smtpUser, jobs)
  {
    if jobs != [] {
      var rest := jobs[1..];
      forall j | 0 <= j < |rest| ensures accepts(MailFor(smtpUser, rest[j])) {
        assert rest[j] == jobs[j + 1];
      }
      AttemptedAllAccepted(smtpUser, accepts, rest);
    }
  }

  class TransactionEmailConsumer {
    const kafka: Kafka.KafkaService
    const emailService: EmailService
    /** The configured consumer group id. */
    const groupId: string
    var console: seq<LogLine>
    /** Milliseconds spent waiting between lookups. */
    var waitedMs: nat

    constructor (kafka: Kafka.KafkaService, emailService: EmailService, groupId: string)
      ensures this.kafka == kafka && this.emailService == emailService && this.groupId == groupId
      ensures console == [] && waitedMs == 0
    {
      this.kafka := kafka;
      this.emailService := emailService;
      this.groupId := groupId;
      console, waitedMs := [], 0;
    }

    /** onModuleInit: subscribe to `transactions.created` under the group "<groupId>-email". */
    method OnModuleInit(failAt: Option<Kafka.Step>) returns (r: Outcome<Kafka.BrokerError>)
      requires kafka.Valid()
      modifies kafka
      ensures kafka.Valid()
      ensures var key := Kafka.ConsumerKey(TRANSACTION_CREATED, EmailGroupId(groupId));
              && (key in old(kafka.consumers) ==>
                    r.Pass? && kafka.consumers == old(kafka.consumers) && kafka.trace == old(kafka.trace))
              && (key !in old(kafka.consumers) ==>
                    && kafka.trace == old(kafka.trace) + Kafka.SetupCalls(TRANSACTION_CREATED, EmailGroupId(groupId), failAt)
                    && (r.Pass? <==> failAt.None?)
                    && kafka.consumers == if r.Pass?
                                          then old(kafka.consumers)[key := Kafka.ConsumerHandle(EmailGroupId(groupId), TRANSACTION_CREATED)]
                                          else old(kafka.consumers))
    {
      r := kafka.CreateConsumer(TRANSACTION_CREATED, EmailGroupId(groupId), failAt);
    }

    /** Sends `jobs` in order, stopping at the first send that throws and passing its error on. */
    method SendAll(jobs: seq<TransactionEmailData>) returns (r: Outcome<MailError>)
      modifies emailService, emailService.transporter
      ensures emailService.transporter.sent
              == old(emailService.transporter.sent) + Attempted(emailService.smtpUser, emailService.transporter.accepts, jobs)
      ensures r == SendResult(emailService.smtpUser, emailService.transporter.accepts, jobs)
    {
      ghost var smtpUser, accepts := emailService.smtpUser, emailService.transporter.accepts;
      ghost var sentBefore := emailService.transporter.sent;
      var i := 0;
      while i < |jobs|
        invariant 0 <= i <= |jobs|
        invariant sentBefore + Attempted(smtpUser, accepts, jobs)
                  == emailService.transporter.sent + Attempted(smtpUser, accepts, jobs[i..])
        invariant SendResult(smtpUser, accepts, jobs) == SendResult(smtpUser, accepts, jobs[i..])
      {
        ghost var log := emailService.transporter.sent;
        var sent := emailService.SendTransactionEmail(jobs[i]);
        AttemptedStep(smtpUser, accepts, jobs, i, log, emailService.transporter.sent);
        if sent.Fail? {
          return sent;
        }
        i := i + 1;
      }
      assert jobs[i..] == [];
      r := Pass;
    }

    /**
     * handleTransaction: when the row is never found, one error line is
     * logged and nothing is sent; a lookup that throws leaves the handler at
     * once with its error; otherwise the row's e-mails are sent in order
     * until one throws, and that error leaves the handler.
     */
    method HandleTransaction(event: TransactionCreatedEvent, lookup: nat -> Fetch)
      returns (r: Outcome<HandlerError>)
      requires forall i: nat :: lookup(i).Found? ==> lookup(i).row.id == event.id
      modifies this, emailService, emailService.transporter
      ensures FirstAnswer(lookup, 0).None? ==>
                && r.Pass?
                && console == old(console) + RetryLines(event.id, MAX_RETRIES) + [NotFoundAfterRetries(event.id, MAX_RETRIES)]
                && waitedMs == old(waitedMs) + MAX_RETRIES * RETRY_DELAY_MS
                && emailService.transporter.sent == old(emailService.transporter.sent)
      ensures FirstAnswer(lookup, 0).Some? ==>
                var k := FirstAnswer(lookup, 0).value;
                && console == old(console) + RetryLines(event.id, k)
                && waitedMs == old(waitedMs) + k * RETRY_DELAY_MS
      ensures FirstAnswer(lookup, 0).Some? && lookup(FirstAnswer(lookup, 0).value).Threw? ==>
                && r == Fail(LookupFailed(lookup(FirstAnswer(lookup, 0).value).cause))
                && emailService.transporter.sent == old(emailService.transporter.sent)
      ensures FirstAnswer(lookup, 0).Some? && lookup(FirstAnswer(lookup, 0).value).Found? ==>
                var jobs := DeriveJobs(lookup(FirstAnswer(lookup, 0).value).row);
                var outcome := SendResult(emailService.smtpUser, emailService.transporter.accepts, jobs);
                && emailService.transporter.sent
                   == old(emailService.transporter.sent) + Attempted(emailService.smtpUser, emailService.transporter.accepts, jobs)
                && (r.Pass? <==> outcome.Pass?)
                && (r.Fail? ==> r.error == SendRefused(outcome.error))
                && (forall j | j in jobs :: j.transactionId == event.id)
    {
      var fetched, lookups, waits, lines := Resolve(event.id, lookup);
      console := console + lines;
      waitedMs := waitedMs + waits * RETRY_DELAY_MS;
      if fetched.Absent? {
        console := console + [NotFoundAfterRetries(event.id, MAX_RETRIES)];
        return Pass;
      }
      if fetched.Threw? {
        return Fail(LookupFailed(fetched.cause));
      }
      var sent := SendAll(DeriveJobs(fetched.row));
      r := if sent.Pass? then Pass else Fail(SendRefused(sent.error));
    }
  }
}

=== FILE: transaction_service.dfy ===
/**
 * The ledger engine: deposits, withdrawals and transfers against the wallet
 * store, each committed together with one immutable transaction row and one
 * `transactions.created` announcement.
 *
 * The store is a value (`Store`); `DepositWithdrawSpec` and `TransferSpec`
 * say what one operation does to it, the lemmas below say what those
 * operations keep, and the class `TransactionService` performs the same
 * operations step by step on its fields.
 */
module Ledger {
  import opened Wrappers
  import opened Domain
  import Kafka

  datatype BadRequestReason = AmountNotPositive | SameAccount | InsufficientBalance | InvalidType

  datatype NotFoundReason = AccountNotFound | DebitedNotFound | CreditedNotFound | TransactionNotFound

  /**
   * What the service throws. `PublishFailed` is the producer's error, which
   * escapes the commit scope and so undoes the commit.
   */
  datatype LedgerError = BadRequest(bad: BadRequestReason) | NotFound(missing: NotFoundReason) | PublishFailed

  /**
   * The message each exception the service raises carries. `PublishFailed`
   * is the producer's own error, whose message is the broker's, not the
   * service's.
   */
  function Message(e: LedgerError): Option<string>
  {
    match e
    case BadRequest(AmountNotPositive) => Some("Amount must be greater than 0")
    case BadRequest(SameAccount) => Some("Cannot transfer to the same account")
    case BadRequest(InsufficientBalance) => Some("Insufficient balance")
    case BadRequest(InvalidType) => Some("Invalid transaction type")
    case NotFound(AccountNotFound) => Some("Account not found")
    case NotFound(DebitedNotFound) => Some("Debited account not found")
    case NotFound(CreditedNotFound) => Some("Credited account not found")
    case NotFound(TransactionNotFound) => Some("Transaction not found")
    case PublishFailed => None
  }

  /** Every exception the service raises itself has a message, and the message tells which check failed. */
  lemma MessageIdentifiesError(e1: LedgerError, e2: LedgerError)
    ensures !e1.PublishFailed? <==> Message(e1).Some?
    ensures Message(e1).Some? && Message(e1) == Message(e2) ==> e1 == e2
  {
  }

  /** One message handed to the producer. */
  datatype Publication = Publication(topic: string, event: TransactionCreatedEvent)

  /** The announcement of a committed row. */
  function Announce(tx: Transaction): Publication
  {
    Publication(TRANSACTION_CREATED, EventOf(tx))
  }

  /** Wallet balances (integer cents), the transaction rows in commit order, and what was published. */
  datatype Store = Store(balances: map<WalletId, int>, log: seq<Transaction>, published: seq<Publication>)

  /** The effect of one operation: a commit with the new store and the created row, or a rejection. */
  datatype Effect = Committed(after: Store, tx: Transaction) | Rejected(error: LedgerError)

  /** The store is sound: no negative balance, ids are the commit positions, every row obeys the slot rule, and each row was announced exactly once, in order. */
  ghost predicate WellFormed(s: Store)
  {
    && (forall w | w in s.balances :: s.balances[w] >= 0)
    && |s.published| == |s.log|
    && (forall i | 0 <= i < |s.log| ::
          && s.log[i].id == i
          && s.log[i].amount > 0
          && SlotRule(s.log[i])
          && References(s.log[i]) <= s.balances.Keys
          && s.published[i] == Announce(s.log[i]))
  }

  /** What one row moves into wallet `w` (negative when it moves money out). */
  function Flow(tx: Transaction, w: WalletId): int
  {
    (if tx.creditedAccountId == Some(w) then tx.amount else 0) -
    (if tx.debitedAccountId == Some(w) then tx.amount else 0)
  }

  /** The net movement into `w` recorded by a log. */
  function NetFlow(log: seq<Transaction>, w: WalletId): int
  {
    if log == [] then 0 else Flow(log[0], w) + NetFlow(log[1..], w)
  }

  /**
   * The store agrees with its history: each balance is its opening balance
   * plus what the log moved into it (no lost update), and the set of wallets
   * is the one the ledger started with.
   */
  ghost predicate Consistent(opening: map<WalletId, int>, s: Store)
  {
    && WellFormed(s)
    && s.balances.Keys == opening.Keys
    && (forall w | w in s.balances :: s.balances[w] == opening[w] + NetFlow(s.log, w))
  }

  /** The sum of all balances. */
  ghost function Total(m: map<WalletId, int>): int
    decreases |m|
  {
    if m == map[] then 0
    else
      var k :| k in m;
      m[k] + Total(m - {k})
  }

  /**
   * depositWithdraw: the amount is checked first, then the wallet, then
   * the kind (a transfer is refused here), then funds; a commit changes only
   * `walletId`'s balance, appends one row with the slot filled for its kind,
   * and announces that row.
   */
  function DepositWithdrawSpec(s: Store, walletId: WalletId, amount: int, txType: TransactionType,
                               now: int, publishOk: bool): (e: Effect)
    ensures amount <= 0 ==> e == Rejected(BadRequest(AmountNotPositive))
    ensures amount > 0 && walletId !in s.balances ==> e == Rejected(NotFound(AccountNotFound))
    ensures amount > 0 && walletId in s.balances && txType == TRANSFER ==> e == Rejected(BadRequest(InvalidType))
    ensures amount > 0 && walletId in s.balances && txType == WITHDRAW && s.balances[walletId] < amount ==>
              e == Rejected(BadRequest(InsufficientBalance))
    ensures (amount > 0 && walletId in s.balances && txType != TRANSFER &&
             (txType == WITHDRAW ==> amount <= s.balances[walletId]) && !publishOk) ==>
              e == Rejected(PublishFailed)
    ensures e.Committed? <==>
              amount > 0 && walletId in s.balances && txType != TRANSFER &&
              (txType == WITHDRAW ==> amount <= s.balances[walletId]) && publishOk
    ensures e.Committed? ==>
              && e.after.balances.Keys == s.balances.Keys
              && (forall w | w in s.balances && w != walletId :: e.after.balances[w] == s.balances[w])
              && e.after.balances[walletId] == (if txType == DEPOSIT then s.balances[walletId] + amount
                                                else s.balances[walletId] - amount)
              && (txType == WITHDRAW ==> e.after.balances[walletId] >= 0)
              && e.tx.id == |s.log| && e.tx.txType == txType && e.tx.amount == amount && e.tx.createdAt == now
              && SlotRule(e.tx) && References(e.tx) == {walletId}
              && (txType == DEPOSIT ==> e.tx.creditedAccountId == Some(walletId))
              && (txType == WITHDRAW ==> e.tx.debitedAccountId == Some(walletId))
              && e.after.log == s.log + [e.tx]
              && e.after.published == s.published + [Announce(e.tx)]
  {
    if amount <= 0 then Rejected(BadRequest(AmountNotPositive))
    else if walletId !in s.balances then Rejected(NotFound(AccountNotFound))
    else if txType == TRANSFER then Rejected(BadRequest(InvalidType))
    else if txType == WITHDRAW && s.balances[walletId] - amount < 0 then Rejected(BadRequest(InsufficientBalance))
    else if !publishOk then Rejected(PublishFailed)
    else
      var newBalance := if txType == DEPOSIT then s.balances[walletId] + amount else s.balances[walletId] - amount;
      var tx := Transaction(|s.log|, txType, amount,
                            if txType == WITHDRAW then Some(walletId) else None,
                            if txType == DEPOSIT then Some(walletId) else None,
                            now);
      Committed(Store(s.balances[walletId := newBalance], s.log + [tx], s.published + [Announce(tx)]), tx)
  }

  /**
   * transfer: amount, then distinct accounts, then the debited wallet, then
   * the credited wallet, then funds; a commit moves `amount` from the debited
   * to the credited wallet, touches no other wallet, and appends and
   * announces one TRANSFER row naming both.
   */
  function TransferSpec(s: Store, debited: WalletId, credited: WalletId, amount: int,
                        now: int, publishOk: bool): (e: Effect)
    ensures amount <= 0 ==> e == Rejected(BadRequest(AmountNotPositive))
    ensures amount > 0 && debited == credited ==> e == Rejected(BadRequest(SameAccount))
    ensures amount > 0 && debited != credited && debited !in s.balances ==>
              e == Rejected(NotFound(DebitedNotFound))
    ensures amount > 0 && debited != credited && debited in s.balances && credited !in s.balances ==>
              e == Rejected(NotFound(CreditedNotFound))
    ensures (amount > 0 && debited != credited && debited in s.balances && credited in s.balances &&
             s.balances[debited] < amount) ==> e == Rejected(BadRequest(InsufficientBalance))
    ensures (amount > 0 && debited != credited && debited in s.balances && credited in s.balances &&
             amount <= s.balances[debited] && !publishOk) ==> e == Rejected(PublishFailed)
    ensures e.Committed? <==>
              amount > 0 && debited != credited && debited in s.balances && credited in s.balances &&
              amount <= s.balances[debited] && publishOk
    ensures e.Committed? ==>
              && e.after.balances.Keys == s.balances.Keys
              && (forall w | w in s.balances && w != debited && w != credited :: e.after.balances[w] == s.balances[w])
              && e.after.balances[debited] == s.balances[debited] - amount
              && e.after.balances[credited] == s.balances[credited] + amount
              && e.after.balances[debited] + e.after.balances[credited] == s.balances[debited] + s.balances[credited]
              && e.after.balances[debited] >= 0
              && e.tx == Transaction(|s.log|, TRANSFER, amount, Some(debited), Some(credited), now)
              && SlotRule(e.tx) && References(e.tx) == {debited, credited}
              && e.after.log == s.log + [e.tx]
              && e.after.published == s.published + [Announce(e.tx)]
  {
    if amount <= 0 then Rejected(BadRequest(AmountNotPositive))
    else if debited == credited then Rejected(BadRequest(SameAccount))
    else if debited !in s.balances then Rejected(NotFound(DebitedNotFound))
    else if credited !in s.balances then Rejected(NotFound(CreditedNotFound))
    else if s.balances[debited] - amount < 0 then Rejected(BadRequest(InsufficientBalance))
    else if !publishOk then Rejected(PublishFailed)
    else
      var newDebited := s.balances[debited] - amount;
      var newCredited := s.balances[credited] + amount;
      var tx := Transaction(|s.log|, TRANSFER, amount, Some(debited), Some(credited), now);
      Committed(Store(s.balances[debited := newDebited][credited := newCredited],
                      s.log + [tx], s.published + [Announce(tx)]), tx)
  }

  /** The first row of `log` with the given id. */
  function Lookup(log: seq<Transaction>, id: nat): (r: Option<Transaction>)
    ensures r.Some? ==> r.value in log && r.value.id == id
    ensures r.None? <==> forall t | t in log :: t.id != id
  {
    if log == [] then None
    else if log[0].id == id then Some(log[0])
    else Lookup(log[1..], id)
  }

  // ---------------------------------------------------------------------
  // Properties of the operations
  // ---------------------------------------------------------------------

  lemma {:induction false} NetFlowAppend(log: seq<Transaction>, tx: Transaction, w: WalletId)
    ensures NetFlow(log + [tx], w) == NetFlow(log, w) + Flow(tx, w)
  {
    if log == [] {
      assert [] + [tx] == [tx];
    } else {
      assert (log + [tx])[1..] == log[1..] + [tx];
      NetFlowAppend(log[1..], tx, w);
    }
  }

  lemma {:induction false} TotalRemove(m: map<WalletId, int>, k: WalletId)
    requires k in m
    ensures Total(m) == m[k] + Total(m - {k})
    decreases |m|
  {
    var j :| j in m && Total(m) == m[j] + Total(m - {j});
    if j != k {
      var mj, mk := m - {j}, m - {k};
      TotalRemove(mj, k);
      TotalRemove(mk, j);
      assert mj - {k} == mk - {j};
    }
  }

  /** Setting one balance changes the total by exactly the difference. */
  lemma TotalUpdate(m: map<WalletId, int>, k: WalletId, v: int)
    requires k in m
    ensures Total(m[k := v]) == Total(m) - m[k] + v
  {
    TotalRemove(m, k);
    TotalRemove(m[k := v], k);
    assert m[k := v] - {k} == m - {k};
  }

  /** A committed deposit or withdrawal keeps the store sound and in agreement with its history. */
  lemma DepositWithdrawPreserves(opening: map<WalletId, int>, s: Store, walletId: WalletId, amount: int,
                                 txType: TransactionType, now: int, publishOk: bool)
    requires Consistent(opening, s)
    ensures var e := DepositWithdrawSpec(s, walletId, amount, txType, now, publishOk);
            e.Committed? ==> Consistent(opening, e.after)
  {
    var e := DepositWithdrawSpec(s, walletId, amount, txType, now, publishOk);
    if e.Committed? {
      forall w | w in e.after.balances
        ensures e.after.balances[w] == opening[w] + NetFlow(e.after.log, w)
      {
        NetFlowAppend(s.log, e.tx, w);
      }
    }
  }

  /** A committed transfer keeps the store sound and in agreement with its history. */
  lemma TransferPreserves(opening: map<WalletId, int>, s: Store, debited: WalletId, credited: WalletId,
                          amount: int, now: int, publishOk: bool)
    requires Consistent(opening, s)
    ensures var e := TransferSpec(s, debited, credited, amount, now, publishOk);
            e.Committed? ==> Consistent(opening, e.after)
  {
    var e := TransferSpec(s, debited, credited, amount, now, publishOk);
    if e.Committed? {
      forall w | w in e.after.balances
        ensures e.after.balances[w] == opening[w] + NetFlow(e.after.log, w)
      {
        NetFlowAppend(s.log, e.tx, w);
      }
    }
  }

  /** The commit of a deposit or withdrawal that passes every check, as the service writes it: it is the specification's commit, and it keeps the store consistent. */
  lemma DepositWithdrawCommit(opening: map<WalletId, int>, s: Store, walletId: WalletId, amount: int,
                              txType: TransactionType, now: int, tx: Transaction, after: Store)
    requires Consistent(opening, s)
    requires amount > 0 && walletId in s.balances && txType != TRANSFER
    requires txType == WITHDRAW ==> s.balances[walletId] - amount >= 0
    requires tx == Transaction(|s.log|, txType, amount,
                               if txType == WITHDRAW then Some(walletId) else None,
                               if txType == DEPOSIT then Some(walletId) else None,
                               now)
    requires after == Store(s.balances[walletId := if txType == DEPOSIT then s.balances[walletId] + amount
                                                   else s.balances[walletId] - amount],
                            s.log + [tx], s.published + [Announce(tx)])
    ensures DepositWithdrawSpec(s, walletId, amount, txType, now, true) == Committed(after, tx)
    ensures Consistent(opening, after)
  {
    DepositWithdrawPreserves(opening, s, walletId, amount, txType, now, true);
  }

  /** The commit of a transfer that passes every check, as the service writes it: it is the specification's commit, and it keeps the store consistent. */
  lemma TransferCommit(opening: map<WalletId, int>, s: Store, debited: WalletId, credited: WalletId,
                       amount: int, now: int, tx: Transaction, after: Store)
    requires Consistent(opening, s)
    requires amount > 0 && debited != credited && debited in s.balances && credited in s.balances
    requires s.balances[debited] - amount >= 0
    requires tx == Transaction(|s.log|, TRANSFER, amount, Some(debited), Some(credited), now)
    requires after == Store(s.balances[debited := s.balances[debited] - amount]
                                      [credited := s.balances[credited] + amount],
                            s.log + [tx], s.published + [Announce(tx)])
    ensures TransferSpec(s, debited, credited, amount, now, true) == Committed(after, tx)
    ensures Consistent(opening, after)
  {
    TransferPreserves(opening, s, debited, credited, amount, now, true);
  }

  /** A transfer conserves the sum of all balances. */
  lemma TransferConservesTotal(s: Store, debited: WalletId, credited: WalletId, amount: int,
                               now: int, publishOk: bool)
    ensures var e := TransferSpec(s, debited, credited, amount, now, publishOk);
            e.Committed? ==> Total(e.after.balances) == Total(s.balances)
  {
    var e := TransferSpec(s, debited, credited, amount, now, publishOk);
    if e.Committed? {
      var m1 := s.balances[debited := s.balances[debited] - amount];
      TotalUpdate(s.balances, debited, s.balances[debited] - amount);
      TotalUpdate(m1, credited, s.balances[credited] + amount);
    }
  }

  /** A deposit raises the sum of all balances by the amount; a withdrawal lowers it by the amount. */
  lemma DepositWithdrawTotal(s: Store, walletId: WalletId, amount: int, txType: TransactionType,
                             now: int, publishOk: bool)
    ensures var e := DepositWithdrawSpec(s, walletId, amount, txType, now, publishOk);
            e.Committed? ==>
              Total(e.after.balances) == Total(s.balances) + (if txType == DEPOSIT then amount else -amount)
  {
    var e := DepositWithdrawSpec(s, walletId, amount, txType, now, publishOk);
    if e.Committed? {
      TotalUpdate(s.balances, walletId, e.after.balances[walletId]);
    }
  }

  /** In a sound store every row is found by its own id. */
  lemma {:induction false} LookupFindsEachRow(log: seq<Transaction>, i: nat)
    requires i < |log|
    requires forall j, k | 0 <= j < k < |log| :: log[j].id != log[k].id
    ensures Lookup(log, log[i].id) == Some(log[i])
  {
    if i > 0 {
      assert log[0].id != log[i].id;
      assert log[1..][i - 1] == log[i];
      LookupFindsEachRow(log[1..], i - 1);
    }
  }

  /** The id `send` finds on an announced event: every event carries its row's id. */
  function EventId(e: TransactionCreatedEvent): Option<nat>
  {
    Some(e.id)
  }

  /** The record the producer receives for a publication. */
  function RecordOf(p: Publication, text: nat -> string, serialize: TransactionCreatedEvent -> string): Kafka.ProducerRecord
  {
    Kafka.BuildRecord(p.topic, p.event, EventId, text, serialize)
  }

  /**
   * In a sound store every announcement goes to `transactions.created` keyed
   * by its row's id, and, when ids are rendered one-to-one, no two rows share
   * a partition key.
   */
  lemma AnnouncementsKeyedByRow(s: Store, i: nat, j: nat, text: nat -> string,
                                serialize: TransactionCreatedEvent -> string)
    requires WellFormed(s)
    requires i < |s.log| && j < |s.log|
    requires forall a: nat, b: nat :: text(a) == text(b) ==> a == b
    ensures RecordOf(s.published[i], text, serialize).topic == TRANSACTION_CREATED
    ensures RecordOf(s.published[i], text, serialize).messages[0].key == Some(text(s.log[i].id))
    ensures i != j ==> RecordOf(s.published[i], text, serialize).messages[0].key
                       != RecordOf(s.published[j], text, serialize).messages[0].key
  {
    Kafka.SameIdSameKey(TRANSACTION_CREATED, TRANSACTION_CREATED, s.published[i].event, s.published[j].event,
                        EventId, text, serialize);
  }

  /** Wallets 500 and 200, a transfer of 100: 400 and 300, one TRANSFER row naming both. */
  lemma TransferScenario(now: int)
    ensures var s := Store(map["1" := 500, "2" := 200], [], []);
            var e := TransferSpec(s, "1", "2", 100, now, true);
            && e.Committed?
            && e.after.balances == map["1" := 400, "2" := 300]
            && e.tx == Transaction(0, TRANSFER, 100, Some("1"), Some("2"), now)
  {
    var s := Store(map["1" := 500, "2" := 200], [], []);
    var e := TransferSpec(s, "1", "2", 100, now, true);
    assert e.after.balances == map["1" := 400, "2" := 300];
  }

  /** Balance 30, a withdrawal of 50: rejected for insufficient balance; withdrawing all 30 is allowed and leaves 0. */
  lemma WithdrawScenario(now: int)
    ensures var s := Store(map["1" := 30], [], []);
            && DepositWithdrawSpec(s, "1", 50, WITHDRAW, now, true) == Rejected(BadRequest(InsufficientBalance))
            && DepositWithdrawSpec(s, "1", 30, WITHDRAW, now, true).Committed?
            && DepositWithdrawSpec(s, "1", 30, WITHDRAW, now, true).after.balances == map["1" := 0]
  {
    var s := Store(map["1" := 30], [], []);
    assert DepositWithdrawSpec(s, "1", 30, WITHDRAW, now, true).after.balances == map["1" := 0];
  }

  // ---------------------------------------------------------------------
  // The service over a mutable store
  // ---------------------------------------------------------------------

  /** `r` and the new store are what the effect `e` says: the commit's row and store, or the error and the old store. */
  predicate Reflects(e: Effect, r: Result<Transaction, LedgerError>, before: Store, after: Store)
  {
    match e
    case Committed(s, tx) => r == Success(tx) && after == s
    case Rejected(err) => r == Failure(err) && after == before
  }

  class TransactionService {
    var balances: map<WalletId, int>
    var log: seq<Transaction>
    var published: seq<Publication>
    /** The balances the wallets had when this ledger started. */
    ghost const opening: map<WalletId, int>

    function State(): Store
      reads this
    {
      Store(balances, log, published)
    }

    ghost predicate Valid()
      reads this
    {
      Consistent(opening, State())
    }

    constructor (wallets: map<WalletId, int>)
      requires forall w | w in wallets :: wallets[w] >= 0
      ensures Valid()
      ensures State() == Store(wallets, [], []) && opening == wallets
    {
      balances, log, published := wallets, [], [];
      opening := wallets;
    }

    /** findById: the row with that id, or NotFound. */
    function FindById(id: nat): (r: Result<Transaction, LedgerError>)
      reads this
      ensures r.Success? ==> r.value in log && r.value.id == id
      ensures r.Failure? <==> forall t | t in log :: t.id != id
      ensures r.Failure? ==> r.error == NotFound(TransactionNotFound) && Message(r.error) == Some("Transaction not found")
    {
      match Lookup(log, id)
      case Some(t) => Success(t)
      case None => Failure(NotFound(TransactionNotFound))
    }

    /** findAll: every row, in commit order; each of them is what findById gives for its id. */
    function FindAll(): (r: seq<Transaction>)
      reads this
      requires Valid()
      ensures |r| == |log|
      ensures forall i | 0 <= i < |r| :: r[i] == log[i] && FindById(r[i].id) == Success(r[i])
    {
      forall i | 0 <= i < |log| ensures FindById(log[i].id) == Success(log[i]) {
        LookupFindsEachRow(log, i);
      }
      log
    }

    method DepositWithdraw(walletId: WalletId, amount: int, txType: TransactionType, now: int, publishOk: bool)
      returns (r: Result<Transaction, LedgerError>)
      requires Valid()
      modifies this
      ensures Valid()
      ensures Reflects(DepositWithdrawSpec(old(State()), walletId, amount, txType, now, publishOk),
                       r, old(State()), State())
    {
      if amount <= 0 {
        return Failure(BadRequest(AmountNotPositive));
      }
      if walletId !in balances {
        return Failure(NotFound(AccountNotFound));
      }
      var account := balances[walletId];
      // the commit scope: its writes are undone if anything inside it throws
      var savedBalances, savedLog := balances, log;
      var newBalance: int;
      if txType == DEPOSIT {
        newBalance := account + amount;
      } else if txType == WITHDRAW {
        newBalance := account - amount;
        if newBalance < 0 {
          return Failure(BadRequest(InsufficientBalance));
        }
      } else {
        return Failure(BadRequest(InvalidType));
      }
      balances := balances[walletId := newBalance];
      var created := Transaction(|log|, txType, amount,
                                 if txType == WITHDRAW then Some(walletId) else None,
                                 if txType == DEPOSIT then Some(walletId) else None,
                                 now);
      log := log + [created];
      if !publishOk {
        balances, log := savedBalances, savedLog;
        assert State() == old(State());
        return Failure(PublishFailed);
      }
      published := published + [Announce(created)];
      ghost var before := old(State());
      assert State() == Store(before.balances[walletId := newBalance], before.log + [created],
                              before.published + [Announce(created)]);
      DepositWithdrawCommit(opening, before, walletId, amount, txType, now, created, State());
      r := Success(created);
    }

    method Transfer(debited: WalletId, credited: WalletId, amount: int, now: int, publishOk: bool)
      returns (r: Result<Transaction, LedgerError>)
      requires Valid()
      modifies this
      ensures Valid()
      ensures Reflects(TransferSpec(old(State()), debited, credited, amount, now, publishOk),
                       r, old(State()), State())
    {
      if amount <= 0 {
        return Failure(BadRequest(AmountNotPositive));
      }
      if debited == credited {
        return Failure(BadRequest(SameAccount));
      }
      if debited !in balances {
        return Failure(NotFound(DebitedNotFound));
      }
      var debitedAccount := balances[debited];
      if credited !in balances {
        return Failure(NotFound(CreditedNotFound));
      }
      var creditedAccount := balances[credited];
      var newDebitedBalance := debitedAccount - amount;
      if newDebitedBalance < 0 {
        return Failure(BadRequest(InsufficientBalance));
      }
      // the commit scope
      var savedBalances, savedLog := balances, log;
      var newCreditedBalance := creditedAccount + amount;
      balances := balances[debited := newDebitedBalance];
      balances := balances[credited := newCreditedBalance];
      var created := Transaction(|log|, TRANSFER, amount, Some(debited), Some(credited), now);
      log := log + [created];
      if !publishOk {
        balances, log := savedBalances, savedLog;
        assert State() == old(State());
        return Failure(PublishFailed);
      }
      published := published + [Announce(created)];
      ghost var before := old(State());
      assert State() == Store(before.balances[debited := before.balances[debited] - amount]
                                             [credited := before.balances[credited] + amount],
                              before.log + [created], before.published + [Announce(created)]);
      TransferCommit(opening, before, debited, credited, amount, now, created, State());
      r := Success(created);
    }
  }
}

=== FILE: wrappers.dfy ===
/** Option and Result values used for the source's nullable fields and thrown errors. */
module Wrappers {

  datatype Option<+T> = None | Some(value: T)

  datatype Result<+T, +E> = Success(value: T) | Failure(error: E)

  /** An operation that either completes or throws `error`. */
  datatype Outcome<+E> = Pass | Fail(error: E)
}
